=== FILE: README.md ===
# Tilter/drive robot bookkeeping — a Dafny model

This project models the sequential bookkeeping that the robot's subsystem
code performs each control tick:

- **Pose stores.** The tilter, the lift and the intake each keep a reference
  offset, an absolute pose and a visible pose for every degree of freedom.
  Each update scales the raw encoder reading by the joint's gear reduction:
  a differential of four drive encoders through 5:1 for the tilter, 5:1 for
  the lift, and none for the intake. The visible pose is the absolute pose
  plus the reference. Taring rewrites only the reference, then runs the
  update again. The values handed to each joint's velocity filter are kept
  as a sample sequence. They do not depend on the reference, and a tare,
  like an update, adds exactly one sample: the absolute pose.
- **Transmission requests.** The transmission is an immutable record of
  request fields: state, desired chassis voltages, desired tilter voltage,
  bias and hold target. The chassis and tilter calls are pure functions
  that return the updated record. Their contracts say which fields they
  write and that all other fields keep their values.
- **Motor command shaping.** The lift splits one voltage across its two
  motors to keep them level. The intake drives both rollers symmetrically.
  Both joints lock by holding at zero velocity.
- **Lift controller targets.** The setpoint is the requested target. While
  the lift is lowered, it is that target minus `LOWER_BY` = 5°.
- **Chassis pose arithmetic.** Componentwise `+` and `-` on the six-field
  pose record. `include/subsystems/transmission.hpp` and
  `include/lib/odom.hpp` declare this record identically, so one module
  models both.
- **Driver control.** One tick of the driver loop turns buttons and sticks
  into commands. On each tick it tries the transmission mutex once and
  writes the chassis request only when the mutex was free.

Modules: `Motor` (motor.dfy), `PoseStore` (pose_store.dfy), `ChassisPose`
(chassis_pose.dfy), `Transmission` (transmission.dfy), `Chassis`
(chassis.dfy), `Tilter` (tilter.dfy), `Lift` (lift.dfy), `Intake`
(intake.dfy), `LiftController` (lift_controller.dfy), `OpControl`
(opcontrol.dfy).

Angles are in degrees and lengths are exact `real`s. Voltages are in
millivolts. Encoder readings, motor positions, button states and joystick
axes are parameters of the functions that use them.

Choices where the code leaves a gap:

- The transmission's arbitration and hold controller have no
  implementation in these files. The record here only holds requests.
- The enumeration of transmission states is not defined in any modelled
  file. `src/subsystems/tilter.cpp` uses `LOCKED_PASSTHROUGH`, `HOLDING`,
  `EXTENDING` and `RETRACTING`. `PASSIVE` completes the set, as in the
  earlier behaviour enumeration (`include/subsystems/transmission.hpp:126`).
- The tick's pose phase (`src/subsystems/subsystems.cpp:68-71`) calls the
  tilter's `update_pose`. The tilter source names that operation
  `update_angle`, and both names are taken to mean the same operation. The
  lift and intake poses are not updated by the driver loop.

## Model

| member | source | states |
|---|---|---|
| PoseStore.Fresh | src/subsystems/tilter.cpp:5-7 | a new store has reference, absolute and visible pose all 0, and its filter has no samples |
| PoseStore.Update | src/subsystems/tilter.cpp:56-60 | after an update the visible pose equals absolute plus reference; the reference is kept; the filter is stepped with the absolute pose; the visible pose moves exactly as far as the absolute pose did |
| PoseStore.Tare | src/subsystems/tilter.cpp:42-45 | taring to v sets reference := v − previous absolute, and the result reads v plus the motion since the previous sample |
| PoseStore.TareReadsTarget | src/subsystems/tilter.cpp:42-60 | with the sensor unmoved, a tare reads exactly v |
| PoseStore.TareForgetsOldReference | src/subsystems/lift.cpp:55-59 | the result of a tare does not depend on the reference offset it replaces |
| PoseStore.Sides | src/subsystems/lift.cpp:28-34 | a two-sided joint's get_angle returns both visible angles and, third, their midpoint; `Lift.GetAngle` and `Intake.GetAngle` (src/subsystems/intake.cpp:28-34 is identical) are this function applied to the joint's two pose stores |
| Tilter.GetAngle | src/subsystems/tilter.cpp:30-32 | get_angle returns the visible angle, which for a consistent pose is the encoder angle plus the tare reference |
| PoseStore.RunConsistent | src/subsystems/intake.cpp:55-69 | after any non-empty sequence of updates and tares, visible == absolute + reference |
| PoseStore.RunFeedsReadings | src/subsystems/intake.cpp:62-68 | over any sequence of updates and tares, the filter receives exactly the raw absolute readings, one per call |
| PoseStore.FreshRun | src/subsystems/tilter.cpp:5-7 | a store as constructed, after any non-empty sequence of updates and tares, is consistent and has fed its filter exactly the raw readings |
| PoseStore.RunIgnoresReference | src/subsystems/lift.cpp:55-69 | stores that differ only in reference keep equal absolute poses and filter samples under any calls; updates keep the offset gap and a tare erases it |
| ChassisPose.Make | include/subsystems/transmission.hpp:32-33 | the three-argument constructor sets x, y and heading and defaults the three encoder distances to 0 |
| ChassisPose.Add | include/subsystems/transmission.hpp:41-50 | every one of the six fields of a + b is the sum of that field of a and of b; in particular the heading is a plain sum, never wrapped into one turn (as at include/lib/odom.hpp:53) |
| ChassisPose.Sub | include/subsystems/transmission.hpp:58-67 | every one of the six fields of a − b is the difference of that field of a and of b |
| ChassisPose.AddSubRoundTrip | include/lib/odom.hpp:50-76 | (a + b) − b == a |
| ChassisPose.SubAddRoundTrip | include/subsystems/transmission.hpp:41-67 | (a − b) + b == a |
| ChassisPose.SubSelfIsZero | include/lib/odom.hpp:67-76 | a − a is the all-zero pose |
| ChassisPose.AddCommutes | include/lib/odom.hpp:50-59 | a + b == b + a, and the zero pose is the identity |
| Chassis.MoveVoltage | src/subsystems/chassis.cpp:10-13 | sets desired left := l and desired right := r, and keeps state, tilter voltage, bias and hold target |
| Chassis.MoveVoltageBoth | src/subsystems/chassis.cpp:14-17 | has the same effect as move_voltage(val, val), and keeps the tilter's fields |
| Chassis.LastWriteWins | src/subsystems/chassis.cpp:10-13 | a second call overwrites the first, and repeating a call changes nothing |
| Chassis.MoveAllLastWins | src/subsystems/chassis.cpp:11-12 | after any non-empty series of calls, only the last call's voltages remain, and the tilter's fields are as before the series |
| Tilter.UpdateAngle | src/subsystems/tilter.cpp:48-61 | the absolute angle comes from the four encoders; the visible angle is absolute plus reference; the filter is stepped with the absolute angle |
| Tilter.TareAngle | src/subsystems/tilter.cpp:42-44 | tare_angle(v) sets reference := v − previous absolute, so get_angle reads v + (new absolute − old absolute) |
| Tilter.CommonModeLeavesAngle | src/subsystems/tilter.cpp:51-54 | driving both motors of a side by the same amount leaves the angle unchanged; moving one shared motor by d changes it by −d/10 |
| Tilter.TareThenUpdateReads | src/subsystems/tilter.cpp:42-60 | with the encoders unmoved, taring and any later update read exactly v |
| Tilter.FilterSampleIgnoresReference | src/subsystems/tilter.cpp:57 | the sample given to the velocity filter does not depend on the reference offset |
| Tilter.MoveVoltage | src/subsystems/tilter.cpp:10-13 | sets state := LOCKED_PASSTHROUGH and tilter voltage := val, and keeps the chassis voltages, bias and hold target |
| Tilter.Hold | src/subsystems/tilter.cpp:16-20 | sets bias := b, hold target := the current visible angle and state := HOLDING, and keeps the chassis voltages and tilter voltage |
| Tilter.HoldAfterTareTargetsTare | src/subsystems/tilter.cpp:17-18 | a hold right after a tare with unmoved encoders targets the tared value |
| Tilter.ExtendPassive | src/subsystems/tilter.cpp:23-25 | sets state := EXTENDING from any state and changes nothing else |
| Tilter.RetractPassive | src/subsystems/tilter.cpp:26-28 | sets state := RETRACTING from any state and changes nothing else |
| Lift.UpdateAngles | src/subsystems/lift.cpp:62-69 | each side's absolute pose is its raw position / 5 and its visible pose is absolute plus reference; the filters receive the absolute poses |
| Lift.TareAngle | src/subsystems/lift.cpp:55-59 | both sides' references are set against their previous absolute poses, so both sides read val when the encoders have not moved |
| Lift.MoveVoltage | src/subsystems/lift.cpp:12-17 | both motors coast; the two voltages sum to 2·val and differ by 2·20·(right − left); they are equal to val when the positions match; when the right side is ahead, left > val > right |
| Intake.UpdateAngles | src/subsystems/intake.cpp:62-69 | each roller's absolute pose is its raw position, with no reduction, and its visible pose is absolute plus reference; the filters receive the absolute poses |
| Intake.TareAngles | src/subsystems/intake.cpp:55-59 | each side's reference is set independently against its own previous absolute pose; the absolute poses become the raw positions; each side reads its target plus the motion since the previous sample |
| Intake.TareAnglesReadBack | src/subsystems/intake.cpp:55-68 | with unmoved rollers, the sides read (l, r), and the filter samples of both sides match those of a plain update |
| Intake.MoveVoltage | src/subsystems/intake.cpp:12-17 | both rollers coast at exactly val |
| Motor.LockBoth | src/subsystems/lift.cpp:20-25 | lock puts both motors in hold mode at zero velocity, never coasting (the intake's src/subsystems/intake.cpp:20-25 is identical) |
| LiftController.ConstructAsWritten | src/controllers/lift_controller.cpp:4-8 | as written, construction sets the setpoint to the requested target 0 and leaves lowered indeterminate |
| LiftController.ConstructAsWrittenBreaksInv | include/controllers/lift_controller.hpp:35 | if the uninitialised flag reads true, the invariant fails at construction, and set_target(30) lowers to 25 |
| LiftController.Construct | src/controllers/lift_controller.cpp:8 | the corrected construction starts raised with setpoint == requested target == 0, so the invariant holds |
| LiftController.Lower | src/controllers/lift_controller.cpp:29-32 | sets target := actual − 5° and lowered := true, and keeps the requested target |
| LiftController.Raise | src/controllers/lift_controller.cpp:34-37 | sets target := actual and lowered := false |
| LiftController.SetTarget | src/controllers/lift_controller.cpp:23-27 | sets actual := t and keeps lowered; the target is t − 5° when lowered and t otherwise |
| LiftController.LowerRaiseLaws | src/controllers/lift_controller.cpp:29-37 | lower is idempotent, and raise after lower restores target == actual |
| LiftController.RunKeepsInv | src/controllers/lift_controller.cpp:23-37 | every sequence of calls preserves target == actual − (lowered ? 5° : 0), and set_target calls alone never change lowered |
| LiftController.ConstructedKeepsInv | src/controllers/lift_controller.cpp:8-37 | a controller from the corrected constructor satisfies target == actual − (lowered ? 5° : 0) after any sequence of set_target, lower and raise calls |
| OpControl.SelectIntake | src/opcontrol.cpp:37-49 | both buttons give −4000 and take precedence; in alone gives 12000; out alone gives −12000; the intake locks exactly when no button is pressed |
| OpControl.SelectLift | src/opcontrol.cpp:52-54 | up gives 12000 and wins over down; down alone gives −8000; the lift locks exactly when neither button is pressed |
| OpControl.TruncateToInt | src/opcontrol.cpp:25-26 | converting a double to int truncates toward zero |
| OpControl.DriveVoltage | src/opcontrol.cpp:25-26 | the drive voltage is analog·12000 truncated toward zero, so it lies within ±12000 when the axis is in [−1, 1] |
| OpControl.CommandIntake | src/opcontrol.cpp:37-49 | a run command makes both rollers coast at its voltage; a lock command locks them |
| OpControl.CommandLift | src/opcontrol.cpp:52-54 | a run command applies the equalising split; a lock command locks the lift |
| OpControl.Tick | src/opcontrol.cpp:11-54 | the state handed to update_controllers holds this tick's tilter pose: it is exactly the tilter's update_angle on this tick's encoders, so the pose is consistent, reads those encoders, keeps the reference and feeds the velocity filter that one absolute angle; the chassis request is the sticks' voltages when the mutex was free and the request record is unchanged otherwise, the tilter's fields never written; the intake and lift carry the button commands |
| OpControl.OperatorControl | src/opcontrol.cpp:8-56 | over any run of ticks, each with its own mutex outcome: if the mutex was never free, the driver loop wrote no request; otherwise the sticks at the last tick that took the mutex decide the chassis voltages; the driver loop's own calls never write the tilter's request fields; the tilter pose is consistent with the last tick's encoders; the tilter's velocity filter receives exactly one absolute angle per tick, in tick order |

## Left out

- The transmission's arbitration `update()`, its hold controller with saturation scaling, and the lift interlock thresholds: no modelled file implements them. `src/subsystems/transmission.cpp`, `src/subsystems/transmission_state_machine.cpp`, `src/state_machine.cpp` and `include/state_machine.hpp` belong to a superseded iteration whose template is compiled out by `#if FALSE`. They are not part of this model.
- Motor, encoder and controller hardware: motor commands are abstract values, readings and buttons are parameters, and nothing is sent to hardware.
- The velocity and acceleration computed by okapi's `VelMath` (library code): only the samples fed to it are modelled. The velocity and acceleration getters, including their means, are not modelled.
- The okapi position PID controller: only the setpoint given to it is modelled, not its output.
- The `LiftController` constructor's blocking control loop (src/controllers/lift_controller.cpp:10-20): it never returns and runs a hardware loop.
- The updater task in `src/subsystems/subsystems.cpp`, the tilter and pull-out controller tasks, and the mutex protocol between tasks: these are concurrent routines. The driver loop sees them only through each tick's mutex outcome (`Free` or `HeldByRoutine`). What those routines write is not modelled: the transmission requests they make while holding the mutex, the tilter pose updates they run (src/controllers/tilter_controller.cpp:25, src/controllers/pull_out_controller.cpp:24), and the lift and intake commands they send (src/controllers/tilter_controller.cpp:34, src/controllers/pull_out_controller.cpp:20, 31), which the driver loop overwrites each tick without taking those subsystems' mutexes.
- `update_controllers()` at the end of a tick: it calls the arbitration `update()`, which is left out. The tick's result is the state that call would read.
- The chassis `update_pose`, which calls odometry `update`. That function is an empty stub (src/lib/odom.cpp:26-28).
- Floating-point rounding of `QAngle` and `double` arithmetic: all pose arithmetic is exact over `real`.
- Lift.MoveVoltage: does not model the int16 truncation of the voltage that `moveVoltage` receives. The sum 2·val holds in exact arithmetic only. It also reads each motor position once, whereas src/subsystems/lift.cpp:15 and :16 each read both positions again, with the left motor's command sent in between; the exact sum 2·val and difference 2·20·(right − left) assume the repeated reads agree.
- Intake.MoveVoltage: does not model the int16 narrowing in `moveVoltage` either, so "exactly val" holds only for |val| ≤ 32767. Every call site passes −4000, −3000 or ±12000.
- OpControl.CommandIntake: inherits the same int16 gap through `Intake.MoveVoltage`; the driver loop only ever passes −4000 or ±12000.
- OpControl.OperatorControl: each tick starts from the state the previous tick handed to `update_controllers()`, so the run treats the transmission's `update()` (src/opcontrol.cpp:57, src/subsystems/subsystems.cpp:74-76) as leaving the request record and the tilter pose unchanged. No modelled file contains the body of that call.
- The autonomous routine, initialisation and wiring files: they contain no logic beyond timed calls and construction.

## Findings

| source | as written | input that shows it | evidently intended | confidence | as-written member | corrected member |
|---|---|---|---|---|---|---|
| include/controllers/lift_controller.hpp:35 | `bool lowered;` has no initialiser, and the constructor (src/controllers/lift_controller.cpp:4-8) never sets it, so after construction the flag is indeterminate | construct, then `set_target(30°)` while the flag's storage reads true: the setpoint becomes 25° although `lower()` was never called | `lowered` starts false, so the setpoint equals the requested target (0°) at construction | low: not executed; the constructor's blocking loop and the commented-out wiring keep this path from running today | LiftController.ConstructAsWritten | LiftController.Construct |

=== FILE: chassis.dfy ===
/** The chassis's only effect on the transmission: it writes the desired
    chassis voltages. */
module Chassis {
  import opened Transmission

  /** `move_voltage(l, r)`. */
  function MoveVoltage(t: Requests, left: int, right: int): (r: Requests)
    ensures r.chassisLeft == left && r.chassisRight == right
    ensures TilterUnchanged(t, r)
  {
    t.(chassisLeft := left, chassisRight := right)
  }

  /** `move_voltage(val)`: both sides at the same voltage. */
  function MoveVoltageBoth(t: Requests, val: int): (r: Requests)
    ensures r == MoveVoltage(t, val, val)
    ensures r.chassisLeft == r.chassisRight == val
    ensures TilterUnchanged(t, r)
  {
    t.(chassisLeft := val, chassisRight := val)
  }

  /** A later call overwrites an earlier one; repeating a call changes nothing. */
  lemma LastWriteWins(t: Requests, l1: int, r1: int, l2: int, r2: int)
    ensures MoveVoltage(MoveVoltage(t, l1, r1), l2, r2) == MoveVoltage(t, l2, r2)
    ensures MoveVoltage(MoveVoltage(t, l1, r1), l1, r1) == MoveVoltage(t, l1, r1)
  {
  }

  /** Apply a sequence of `move_voltage(l, r)` calls, first to last. */
  function MoveAll(t: Requests, calls: seq<(int, int)>): Requests
    decreases |calls|
  {
    if |calls| == 0 then t else MoveAll(MoveVoltage(t, calls[0].0, calls[0].1), calls[1..])
  }

  /** After any non-empty series of calls only the last one shows, and
      the tilter's fields are those from before the series. */
  lemma {:induction false} MoveAllLastWins(t: Requests, calls: seq<(int, int)>)
    requires |calls| > 0
    ensures MoveAll(t, calls) == MoveVoltage(t, calls[|calls| - 1].0, calls[|calls| - 1].1)
    decreases |calls|
  {
    if |calls| > 1 {
      MoveAllLastWins(MoveVoltage(t, calls[0].0, calls[0].1), calls[1..]);
      assert calls[1..][|calls[1..]| - 1] == calls[|calls| - 1];
    }
  }
}

=== FILE: chassis_pose.dfy ===
/** The six-field chassis pose record and its componentwise arithmetic.
    The transmission header and the odometry header each declare this
    record with identical fields, defaults and operators; one model
    serves both. Lengths and angles are exact reals. */
module ChassisPose {

  datatype ChassisPose = ChassisPose(
    x: real,
    y: real,
    heading: real,
    encLeft: real,
    encRight: real,
    encSide: real)

  /** Names of the six fields, for stating componentwise properties. */
  datatype Field = X | Y | Heading | EncLeft | EncRight | EncSide

  /** Reads one field of a pose. */
  function Get(p: ChassisPose, f: Field): real {
    match f
    case X => p.x
    case Y => p.y
    case Heading => p.heading
    case EncLeft => p.encLeft
    case EncRight => p.encRight
    case EncSide => p.encSide
  }

  /** The all-zero pose. */
  const Zero: ChassisPose := ChassisPose(0.0, 0.0, 0.0, 0.0, 0.0, 0.0)

  /** The three-argument constructor: encoder distances default to zero. */
  function Make(x: real, y: real, heading: real): (p: ChassisPose)
    ensures Get(p, X) == x && Get(p, Y) == y && Get(p, Heading) == heading
    ensures forall f :: f != X && f != Y && f != Heading ==> Get(p, f) == Get(Zero, f)
  {
    ChassisPose(x, y, heading, 0.0, 0.0, 0.0)
  }

  /** `operator+`. */
  function Add(a: ChassisPose, b: ChassisPose): (r: ChassisPose)
    ensures forall f :: Get(r, f) == Get(a, f) + Get(b, f)
  {
    ChassisPose(a.x + b.x, a.y + b.y, a.heading + b.heading,
                a.encLeft + b.encLeft, a.encRight + b.encRight, a.encSide + b.encSide)
  }

  /** `operator-`. */
  function Sub(a: ChassisPose, b: ChassisPose): (r: ChassisPose)
    ensures forall f :: Get(r, f) == Get(a, f) - Get(b, f)
  {
    ChassisPose(a.x - b.x, a.y - b.y, a.heading - b.heading,
                a.encLeft - b.encLeft, a.encRight - b.encRight, a.encSide - b.encSide)
  }

  /** Two poses are equal when every field agrees. */
  lemma FieldsDetermine(a: ChassisPose, b: ChassisPose)
    requires forall f :: Get(a, f) == Get(b, f)
    ensures a == b
  {
    assert Get(a, X) == Get(b, X) && Get(a, Y) == Get(b, Y) && Get(a, Heading) == Get(b, Heading);
    assert Get(a, EncLeft) == Get(b, EncLeft) && Get(a, EncRight) == Get(b, EncRight);
    assert Get(a, EncSide) == Get(b, EncSide);
  }

  /** Subtracting what was added gives back the original pose. */
  lemma AddSubRoundTrip(a: ChassisPose, b: ChassisPose)
    ensures Sub(Add(a, b), b) == a
  {
    FieldsDetermine(Sub(Add(a, b), b), a);
  }

  /** Adding back what was subtracted gives back the original pose. */
  lemma SubAddRoundTrip(a: ChassisPose, b: ChassisPose)
    ensures Add(Sub(a, b), b) == a
  {
    FieldsDetermine(Add(Sub(a, b), b), a);
  }

  /** A pose minus itself is the all-zero pose. */
  lemma SubSelfIsZero(a: ChassisPose)
    ensures Sub(a, a) == Zero
  {
    FieldsDetermine(Sub(a, a), Zero);
  }

  /** Addition is commutative and has the all-zero pose as identity. */
  lemma AddCommutes(a: ChassisPose, b: ChassisPose)
    ensures Add(a, b) == Add(b, a)
    ensures Add(a, Zero) == a
  {
    FieldsDetermine(Add(a, b), Add(b, a));
    FieldsDetermine(Add(a, Zero), a);
  }
}

=== FILE: intake.dfy ===
/** The intake: two rollers driven directly (no reduction), each with its
    own pose store, always commanded symmetrically. */
module Intake {
  import opened PoseStore
  import opened Motor

  datatype Intake = Intake(left: Store, right: Store)

  /** `update_angles()`, given the raw motor positions in degrees. */
  function UpdateAngles(n: Intake, rawLeft: real, rawRight: real): (r: Intake)
    ensures Consistent(r.left) && Consistent(r.right)
    ensures r.left.absolute == rawLeft && r.right.absolute == rawRight
    ensures r.left.reference == n.left.reference && r.right.reference == n.right.reference
    ensures r.left.samples == n.left.samples + [rawLeft]
    ensures r.right.samples == n.right.samples + [rawRight]
  {
    Intake(Update(n.left, rawLeft), Update(n.right, rawRight))
  }

  /** `tare_angles(left, right)`: each side tared independently. */
  function TareAngles(n: Intake, left: real, right: real, rawLeft: real, rawRight: real): (r: Intake)
    ensures Consistent(r.left) && Consistent(r.right)
    ensures r.left.reference == left - n.left.absolute && r.right.reference == right - n.right.absolute
    ensures r.left.absolute == rawLeft && r.right.absolute == rawRight
    ensures r.left.visible == left + (rawLeft - n.left.absolute)
    ensures r.right.visible == right + (rawRight - n.right.absolute)
    ensures r.left.samples == n.left.samples + [rawLeft]
    ensures r.right.samples == n.right.samples + [rawRight]
  {
    Intake(Tare(n.left, left, rawLeft), Tare(n.right, right, rawRight))
  }

  /** With unmoved rollers the tare reads back exactly; the filter
      samples are the same as an update would have produced. */
  lemma TareAnglesReadBack(n: Intake, left: real, right: real)
    ensures TareAngles(n, left, right, n.left.absolute, n.right.absolute).left.visible == left
    ensures TareAngles(n, left, right, n.left.absolute, n.right.absolute).right.visible == right
    ensures TareAngles(n, left, right, n.left.absolute, n.right.absolute).left.samples
         == UpdateAngles(n, n.left.absolute, n.right.absolute).left.samples
    ensures TareAngles(n, left, right, n.left.absolute, n.right.absolute).right.samples
         == UpdateAngles(n, n.left.absolute, n.right.absolute).right.samples
  {
  }

  /** `get_angle()`. */
  function GetAngle(n: Intake): Angles {
    Sides(n.left, n.right)
  }

  /** `move_voltage(val)`: both rollers coast at exactly `val`. */
  function MoveVoltage(val: int): (m: Pair)
    ensures CoastsAt(m.left, val as real) && CoastsAt(m.right, val as real)
  {
    Pair(Output(Coast, Voltage(val as real)), Output(Coast, Voltage(val as real)))
  }
}

=== FILE: lift.dfy ===
/** The lift: two motors through a 5:1 reduction, each side with its own
    pose store, driven with an equalising voltage split. */
module Lift {
  import opened PoseStore
  import opened Motor

  /** Gear reduction between the lift motors and the lift arms. */
  const REDUCTION: real := 5.0

  /** Millivolts of correction per degree of motor-position mismatch. */
  const EQUALISE_GAIN: real := 20.0

  datatype Lift = Lift(left: Store, right: Store)

  /** `update_angles()`, given the raw motor positions in degrees. */
  function UpdateAngles(l: Lift, rawLeft: real, rawRight: real): (r: Lift)
    ensures Consistent(r.left) && Consistent(r.right)
    ensures r.left.absolute * REDUCTION == rawLeft && r.right.absolute * REDUCTION == rawRight
    ensures r.left.reference == l.left.reference && r.right.reference == l.right.reference
    ensures r.left.samples == l.left.samples + [r.left.absolute]
    ensures r.right.samples == l.right.samples + [r.right.absolute]
  {
    Lift(Update(l.left, rawLeft / REDUCTION), Update(l.right, rawRight / REDUCTION))
  }

  /** `tare_angle(val)`: both sides are tared to the same value. */
  function TareAngle(l: Lift, val: real, rawLeft: real, rawRight: real): (r: Lift)
    ensures Consistent(r.left) && Consistent(r.right)
    ensures r.left.reference == val - l.left.absolute && r.right.reference == val - l.right.absolute
    ensures r.left.visible == val + (rawLeft / REDUCTION - l.left.absolute)
    ensures r.right.visible == val + (rawRight / REDUCTION - l.right.absolute)
    ensures rawLeft == l.left.absolute * REDUCTION && rawRight == l.right.absolute * REDUCTION ==>
              r.left.visible == val && r.right.visible == val
    ensures r.left.samples == l.left.samples + [rawLeft / REDUCTION]
    ensures r.right.samples == l.right.samples + [rawRight / REDUCTION]
  {
    Lift(Tare(l.left, val, rawLeft / REDUCTION), Tare(l.right, val, rawRight / REDUCTION))
  }

  /** `get_angle()`. */
  function GetAngle(l: Lift): Angles {
    Sides(l.left, l.right)
  }

  /** `move_voltage(val)`: coast, and split `val` so that the side whose
      motor lags gets more voltage, in proportion to the lag. */
  function MoveVoltage(val: int, posLeft: real, posRight: real): (m: Pair)
    ensures m.left.brake == Coast && m.right.brake == Coast
    ensures m.left.drive.Voltage? && m.right.drive.Voltage?
    ensures m.left.drive.millivolts + m.right.drive.millivolts == 2.0 * val as real
    ensures m.left.drive.millivolts - m.right.drive.millivolts == 2.0 * EQUALISE_GAIN * (posRight - posLeft)
    ensures posLeft == posRight ==> CoastsAt(m.left, val as real) && CoastsAt(m.right, val as real)
    ensures posRight > posLeft ==>
              m.left.drive.millivolts > val as real > m.right.drive.millivolts
    ensures posRight < posLeft ==>
              m.left.drive.millivolts < val as real < m.right.drive.millivolts
  {
    var correction := (posRight - posLeft) * EQUALISE_GAIN;
    Pair(Output(Coast, Voltage(val as real + correction)),
         Output(Coast, Voltage(val as real - correction)))
  }
}

=== FILE: lift_controller.dfy ===
/** The lift controller's target bookkeeping: the target handed to the
    position controller is the requested target, or that target minus
    `LOWER_BY` while the lift is lowered for intaking. */
module LiftController {

  /** How far the lift drops while lowered, in degrees. */
  const LOWER_BY: real := 5.0

  /** `actualTarget` is the requested target; `target` is the setpoint
      last given to the position controller. */
  datatype LiftController = LiftController(actualTarget: real, lowered: bool, target: real)

  /** The setpoint is the requested target, less `LOWER_BY` when lowered. */
  predicate Inv(c: LiftController) {
    c.target == c.actualTarget - (if c.lowered then LOWER_BY else 0.0)
  }

  /** The constructor as written: the requested target starts at 0 and is
      handed to the controller, but `lowered` is never initialised, so it
      holds whatever value the memory had (`indeterminate`). */
  function ConstructAsWritten(indeterminate: bool): (c: LiftController)
    ensures c.actualTarget == 0.0 && c.target == c.actualTarget
    ensures c.lowered == indeterminate
  {
    LiftController(0.0, indeterminate, 0.0)
  }

  /** If the uninitialised flag reads true, the controller starts out of
      step with its own invariant, and the next `set_target` lowers the lift
      although nothing ever asked for that. */
  lemma ConstructAsWrittenBreaksInv()
    ensures !Inv(ConstructAsWritten(true))
    ensures SetTarget(ConstructAsWritten(true), 30.0).target == 25.0
  {
  }

  /** The constructor with `lowered` starting false: raised, setpoint 0. */
  function Construct(): (c: LiftController)
    ensures Inv(c)
    ensures !c.lowered && c.target == 0.0 && c.actualTarget == 0.0
  {
    LiftController(0.0, false, 0.0)
  }

  /** `lower()`. */
  function Lower(c: LiftController): (r: LiftController)
    ensures Inv(r) && r.lowered
    ensures r.actualTarget == c.actualTarget
    ensures r.target == c.actualTarget - LOWER_BY
  {
    c.(target := c.actualTarget - LOWER_BY, lowered := true)
  }

  /** `raise()`. */
  function Raise(c: LiftController): (r: LiftController)
    ensures Inv(r) && !r.lowered
    ensures r.actualTarget == c.actualTarget
    ensures r.target == c.actualTarget
  {
    c.(target := c.actualTarget, lowered := false)
  }

  /** `set_target(t)`: record the request and re-apply the current mode. */
  function SetTarget(c: LiftController, t: real): (r: LiftController)
    ensures Inv(r)
    ensures r.actualTarget == t && r.lowered == c.lowered
    ensures r.target == if c.lowered then t - LOWER_BY else t
  {
    var c' := c.(actualTarget := t);
    if c'.lowered then Lower(c') else Raise(c')
  }

  /** Lowering twice is lowering once; raising undoes a lowering. */
  lemma LowerRaiseLaws(c: LiftController)
    ensures Lower(Lower(c)) == Lower(c)
    ensures Raise(Lower(c)).target == c.actualTarget
    ensures Inv(c) && !c.lowered ==> Raise(Lower(c)) == c
  {
  }

  /** One call on the controller. */
  datatype Call = SetTargetTo(t: real) | LowerCall | RaiseCall

  function Apply(c: LiftController, call: Call): LiftController {
    match call
    case SetTargetTo(t) => SetTarget(c, t)
    case LowerCall => Lower(c)
    case RaiseCall => Raise(c)
  }

  /** Apply a sequence of calls, first to last. */
  function Run(c: LiftController, calls: seq<Call>): LiftController
    decreases |calls|
  {
    if |calls| == 0 then c else Run(Apply(c, calls[0]), calls[1..])
  }

  /** Every sequence of calls keeps the setpoint at the requested target
      less the lowering, and target changes alone never change the mode. */
  lemma {:induction false} RunKeepsInv(c: LiftController, calls: seq<Call>)
    requires Inv(c)
    ensures Inv(Run(c, calls))
    ensures (forall k :: 0 <= k < |calls| ==> calls[k].SetTargetTo?) ==> Run(c, calls).lowered == c.lowered
    decreases |calls|
  {
    if |calls| > 0 {
      RunKeepsInv(Apply(c, calls[0]), calls[1..]);
      if forall k :: 0 <= k < |calls| ==> calls[k].SetTargetTo? {
        assert calls[0].SetTargetTo?;
        assert forall k :: 0 <= k < |calls[1..]| ==> calls[1..][k] == calls[k + 1];
      }
    }
  }

  /** A controller built by the corrected constructor keeps its invariant
      under every sequence of calls. */
  lemma ConstructedKeepsInv(calls: seq<Call>)
    ensures Inv(Run(Construct(), calls))
  {
    RunKeepsInv(Construct(), calls);
  }
}

=== FILE: motor.dfy ===
/** Abstract motor commands: what a subsystem asks of a motor in one call,
    without the hardware that carries it out. */
module Motor {

  /** Brake mode of a motor: coast freely, or actively hold position. */
  datatype BrakeMode = Coast | Hold

  /** The last control request sent to a motor: a voltage in millivolts,
      or a target velocity in rpm. */
  datatype Drive = Voltage(millivolts: real) | Velocity(rpm: int)

  /** Brake mode together with the last control request. */
  datatype Output = Output(brake: BrakeMode, drive: Drive)

  /** The two motors of a two-sided joint (lift, intake). */
  datatype Pair = Pair(left: Output, right: Output)

  /** The motor holds its position: hold brake and zero velocity. */
  predicate Held(o: Output) {
    o.brake == Hold && o.drive == Velocity(0)
  }

  /** The motor coasts under a voltage command of `millivolts`. */
  predicate CoastsAt(o: Output, millivolts: real) {
    o.brake == Coast && o.drive == Voltage(millivolts)
  }

  /** Both motors of a pair hold their position. */
  predicate Locked(p: Pair) {
    Held(p.left) && Held(p.right)
  }

  /** `lock()` of a two-motor joint: both motors switch to the hold brake
      and are commanded to zero velocity. */
  function LockBoth(): (m: Pair)
    ensures Locked(m)
  {
    Pair(Output(Hold, Velocity(0)), Output(Hold, Velocity(0)))
  }
}

=== FILE: opcontrol.dfy ===
/** One tick of the driver-control loop: update poses, write the chassis
    request if the transmission mutex can be taken, command the intake and
    the lift from the buttons, then run the controllers. */
module OpControl {
  import opened Motor
  import opened Transmission
  import opened PoseStore
  import Tilter
  import Chassis
  import Intake
  import Lift

  /** Full-scale motor voltage in millivolts. */
  const FULL_SCALE: int := 12000

  /** What the buttons ask of the intake. */
  datatype IntakeCmd = RunIntake(millivolts: int) | LockIntake

  /** What the buttons ask of the lift. */
  datatype LiftCmd = RunLift(millivolts: int) | LockLift

  /** Intake buttons: both together reverse gently; otherwise in runs
      forward and out runs backward at full scale; none locks. */
  function SelectIntake(inPressed: bool, outPressed: bool): (c: IntakeCmd)
    ensures c == LockIntake <==> !inPressed && !outPressed
    ensures inPressed && outPressed ==> c == RunIntake(-4000)
    ensures inPressed && !outPressed ==> c == RunIntake(FULL_SCALE)
    ensures !inPressed && outPressed ==> c == RunIntake(-FULL_SCALE)
  {
    if inPressed && outPressed then RunIntake(-4000)
    else if inPressed then RunIntake(FULL_SCALE)
    else if outPressed then RunIntake(-FULL_SCALE)
    else LockIntake
  }

  /** Lift buttons: up wins over down; down alone lowers at two thirds
      of full scale; none locks. */
  function SelectLift(upPressed: bool, downPressed: bool): (c: LiftCmd)
    ensures c == LockLift <==> !upPressed && !downPressed
    ensures upPressed ==> c == RunLift(FULL_SCALE)
    ensures !upPressed && downPressed ==> c == RunLift(-8000)
  {
    if upPressed then RunLift(FULL_SCALE)
    else if downPressed then RunLift(-8000)
    else LockLift
  }

  /** Conversion of a double to `int`: truncation toward zero. */
  function TruncateToInt(x: real): (n: int)
    ensures 0.0 <= x ==> 0 <= n && n as real <= x < n as real + 1.0
    ensures x < 0.0 ==> n <= 0 && n as real - 1.0 < x <= n as real
  {
    if x >= 0.0 then x.Floor else -((-x).Floor)
  }

  /** A joystick axis scaled to a chassis voltage, truncated toward zero. */
  function DriveVoltage(analog: real): (v: int)
    ensures -1.0 <= analog <= 1.0 ==> -FULL_SCALE <= v <= FULL_SCALE
    ensures analog >= 0.0 ==> 0 <= v && v as real <= analog * FULL_SCALE as real < v as real + 1.0
    ensures analog <= 0.0 ==> v <= 0 && v as real - 1.0 < analog * FULL_SCALE as real <= v as real
  {
    TruncateToInt(analog * FULL_SCALE as real)
  }

  /** The intake motor commands for a button choice. */
  function CommandIntake(c: IntakeCmd): (m: Pair)
    ensures c.RunIntake? ==> CoastsAt(m.left, c.millivolts as real) && CoastsAt(m.right, c.millivolts as real)
    ensures c.LockIntake? ==> Locked(m)
  {
    match c
    case RunIntake(v) => Intake.MoveVoltage(v)
    case LockIntake => LockBoth()
  }

  /** The lift motor commands for a button choice, given the motor positions. */
  function CommandLift(c: LiftCmd, posLeft: real, posRight: real): (m: Pair)
    ensures c.RunLift? ==> m == Lift.MoveVoltage(c.millivolts, posLeft, posRight)
    ensures c.LockLift? ==> Locked(m)
  {
    match c
    case RunLift(v) => Lift.MoveVoltage(v, posLeft, posRight)
    case LockLift => LockBoth()
  }

  /** Everything the driver loop reads back or writes, tick to tick. */
  datatype Robot = Robot(
    tilter: Tilter.Tilter,
    requests: Requests,
    intake: Pair,
    lift: Pair)

  /** What one tick reads: the operator's controls, the sensors, and
      whether the transmission mutex was free when the tick tried to take
      it (other routines take and give it between ticks). */
  datatype Inputs = Inputs(
    intakeIn: bool,
    intakeOut: bool,
    liftUp: bool,
    liftDown: bool,
    leftY: real,
    rightY: real,
    encoders: Tilter.DriveEncoders,
    liftLeftPosition: real,
    liftRightPosition: real,
    mutex: Mutex)

  /** One pass of the driver-control loop, up to `update_controllers()`:
      the result is the state that call would see. */
  function Tick(r: Robot, i: Inputs): (t: Robot)
    // the chassis request is written exactly when the mutex could be taken
    ensures i.mutex == Free ==>
      && t.requests.chassisLeft == DriveVoltage(i.leftY)
      && t.requests.chassisRight == DriveVoltage(i.rightY)
      && TilterUnchanged(r.requests, t.requests)
    ensures i.mutex == HeldByRoutine ==> t.requests == r.requests
    // the tilter's pose reflects this tick's encoders
    ensures Consistent(t.tilter.pose)
    ensures t.tilter.pose.absolute == Tilter.AbsoluteAngle(i.encoders)
    ensures t.tilter.pose.reference == r.tilter.pose.reference
    // and its velocity filter is stepped once, with this tick's absolute angle
    ensures t.tilter.pose.samples == r.tilter.pose.samples + [Tilter.AbsoluteAngle(i.encoders)]
    ensures t.tilter == Tilter.UpdateAngle(r.tilter, i.encoders)
    ensures t.intake == CommandIntake(SelectIntake(i.intakeIn, i.intakeOut))
    ensures t.lift == CommandLift(SelectLift(i.liftUp, i.liftDown), i.liftLeftPosition, i.liftRightPosition)
  {
    var tilter := Tilter.UpdateAngle(r.tilter, i.encoders);
    var requests :=
      if i.mutex == Free then Chassis.MoveVoltage(r.requests, DriveVoltage(i.leftY), DriveVoltage(i.rightY))
      else r.requests;
    var intake := CommandIntake(SelectIntake(i.intakeIn, i.intakeOut));
    var lift := CommandLift(SelectLift(i.liftUp, i.liftDown), i.liftLeftPosition, i.liftRightPosition);
    Robot(tilter, requests, intake, lift)
  }

  /** The tilter angles a run of ticks reads off the drive encoders, in
      order: one per tick. */
  function TilterReadings(inputs: seq<Inputs>): (a: seq<real>)
    ensures |a| == |inputs|
    ensures forall k :: 0 <= k < |inputs| ==> a[k] == Tilter.AbsoluteAngle(inputs[k].encoders)
  {
    seq(|inputs|, k requires 0 <= k < |inputs| => Tilter.AbsoluteAngle(inputs[k].encoders))
  }

  /** One more tick adds its own reading at the end. */
  lemma ReadingsExtend(inputs: seq<Inputs>, n: nat)
    requires n < |inputs|
    ensures TilterReadings(inputs[..n + 1]) == TilterReadings(inputs[..n]) + [Tilter.AbsoluteAngle(inputs[n].encoders)]
  {
    assert inputs[..n + 1][..n] == inputs[..n];
  }

  /** What the first `n` ticks of a run have done to the request record:
      `last` is the last of them that took the mutex, or -1 if none did. */
  ghost predicate RequestsSoFar(r: Robot, inputs: seq<Inputs>, n: nat, last: int, final: Robot)
    requires n <= |inputs|
  {
    && -1 <= last < n
    && (forall j :: last < j < n ==> inputs[j].mutex == HeldByRoutine)
    && (last == -1 ==> final.requests == r.requests)
    && (last >= 0 ==>
          && inputs[last].mutex == Free
          && final.requests.chassisLeft == DriveVoltage(inputs[last].leftY)
          && final.requests.chassisRight == DriveVoltage(inputs[last].rightY))
    && TilterUnchanged(r.requests, final.requests)
  }

  /** What the first `n` ticks of a run have done to the tilter's pose. */
  ghost predicate PoseSoFar(r: Robot, inputs: seq<Inputs>, n: nat, final: Robot)
    requires n <= |inputs|
  {
    && (n > 0 ==> Consistent(final.tilter.pose))
    && (n > 0 ==> final.tilter.pose.absolute == Tilter.AbsoluteAngle(inputs[n - 1].encoders))
    && final.tilter.pose.reference == r.tilter.pose.reference
    && final.tilter.pose.samples == r.tilter.pose.samples + TilterReadings(inputs[..n])
  }

  /** One more tick keeps the request bookkeeping, moving `last` to it when
      it takes the mutex. */
  lemma StepRequests(r: Robot, inputs: seq<Inputs>, n: nat, last: int, final: Robot)
    requires n < |inputs|
    requires RequestsSoFar(r, inputs, n, last, final)
    ensures RequestsSoFar(r, inputs, n + 1, if inputs[n].mutex == Free then n else last, Tick(final, inputs[n]))
  {
  }

  /** One more tick steps the tilter's pose with that tick's encoders. */
  lemma StepPose(r: Robot, inputs: seq<Inputs>, n: nat, final: Robot)
    requires n < |inputs|
    requires PoseSoFar(r, inputs, n, final)
    ensures PoseSoFar(r, inputs, n + 1, Tick(final, inputs[n]))
  {
    ReadingsExtend(inputs, n);
  }

  /** A whole run's request bookkeeping gives the driver loop's promises
      about the request record. */
  lemma RequestsOutcome(r: Robot, inputs: seq<Inputs>, last: int, final: Robot)
    requires RequestsSoFar(r, inputs, |inputs|, last, final)
    ensures (forall k :: 0 <= k < |inputs| ==> inputs[k].mutex == HeldByRoutine) ==> final.requests == r.requests
    ensures forall k :: 0 <= k < |inputs| && inputs[k].mutex == Free &&
                        (forall j :: k < j < |inputs| ==> inputs[j].mutex == HeldByRoutine) ==>
              && final.requests.chassisLeft == DriveVoltage(inputs[k].leftY)
              && final.requests.chassisRight == DriveVoltage(inputs[k].rightY)
  {
    if last >= 0 {
      assert inputs[last].mutex == Free;
    }
    forall k | 0 <= k < |inputs| && inputs[k].mutex == Free &&
               (forall j :: k < j < |inputs| ==> inputs[j].mutex == HeldByRoutine)
      ensures k == last
    {
      // a free tick after `last`, or `last` itself after k, is ruled out
      if last < k || k < last {
        assert false;
      }
    }
  }

  /** A whole run's pose bookkeeping covers every tick's reading. */
  lemma PoseOutcome(r: Robot, inputs: seq<Inputs>, final: Robot)
    requires PoseSoFar(r, inputs, |inputs|, final)
    ensures final.tilter.pose.samples == r.tilter.pose.samples + TilterReadings(inputs)
  {
    assert inputs[..|inputs|] == inputs;
  }

  /** The driver-control loop over a finite run of ticks, each tick with its
      own mutex outcome. */
  method OperatorControl(r: Robot, inputs: seq<Inputs>) returns (final: Robot)
    // the tilter's velocity filter is stepped once per tick, in tick order
    ensures final.tilter.pose.samples == r.tilter.pose.samples + TilterReadings(inputs)
    // and its pose reflects the last tick's encoders against the kept reference
    ensures final.tilter.pose.reference == r.tilter.pose.reference
    ensures |inputs| > 0 ==> Consistent(final.tilter.pose)
    ensures |inputs| > 0 ==> final.tilter.pose.absolute == Tilter.AbsoluteAngle(inputs[|inputs| - 1].encoders)
    // never free: the loop wrote no request
    ensures (forall k :: 0 <= k < |inputs| ==> inputs[k].mutex == HeldByRoutine) ==> final.requests == r.requests
    // otherwise the sticks of the last tick that took the mutex decide the chassis voltages
    ensures forall k :: 0 <= k < |inputs| && inputs[k].mutex == Free &&
                        (forall j :: k < j < |inputs| ==> inputs[j].mutex == HeldByRoutine) ==>
              && final.requests.chassisLeft == DriveVoltage(inputs[k].leftY)
              && final.requests.chassisRight == DriveVoltage(inputs[k].rightY)
    // the tilter's request fields are never written by the loop
    ensures TilterUnchanged(r.requests, final.requests)
  {
    final := r;
    ghost var last := -1;
    var n := 0;
    while n < |inputs|
      invariant 0 <= n <= |inputs|
      invariant RequestsSoFar(r, inputs, n, last, final)
      invariant PoseSoFar(r, inputs, n, final)
    {
      StepRequests(r, inputs, n, last, final);
      StepPose(r, inputs, n, final);
      if inputs[n].mutex == Free {
        last := n;
      }
      final := Tick(final, inputs[n]);
      n := n + 1;
    }
    RequestsOutcome(r, inputs, last, final);
    PoseOutcome(r, inputs, final);
  }
}

=== FILE: pose_store.dfy ===
/** The per-degree-of-freedom pose bookkeeping every joint performs: a
    reference offset, an absolute pose scaled from the raw sensor, and the
    visible pose that callers read. The samples handed to the joint's
    velocity filter are recorded so that taring can be shown not to
    disturb them. */
module PoseStore {

  /** One degree of freedom. `samples` is the stream of values the
      joint's velocity filter has been stepped with, oldest first. */
  datatype Store = Store(reference: real, absolute: real, visible: real, samples: seq<real>)

  /** The visible pose is the absolute pose shifted by the reference. */
  predicate Consistent(s: Store) {
    s.visible == s.absolute + s.reference
  }

  /** Default-constructed angles read zero and the filter has no samples. */
  function Fresh(): (s: Store)
    ensures Consistent(s)
    ensures s.reference == 0.0 && s.absolute == 0.0
    ensures s.visible == 0.0 && s.samples == []
  {
    Store(0.0, 0.0, 0.0, [])
  }

  /** Sampling phase: record a new absolute pose, step the filter with it
      and republish the visible pose. */
  function Update(s: Store, absolute: real): (r: Store)
    ensures Consistent(r)
    ensures r.absolute == absolute && r.reference == s.reference
    ensures r.samples == s.samples + [absolute]
    ensures Consistent(s) ==> r.visible - s.visible == absolute - s.absolute
  {
    Store(s.reference, absolute, absolute + s.reference, s.samples + [absolute])
  }

  /** Taring to `v`: the reference is chosen against the absolute pose
      held BEFORE the call, then the sampling phase runs on `absolute`. */
  function Tare(s: Store, v: real, absolute: real): (r: Store)
    ensures Consistent(r)
    ensures r.reference == v - s.absolute
    ensures r.visible == v + (absolute - s.absolute)
    ensures r.absolute == absolute && r.samples == s.samples + [absolute]
  {
    Update(s.(reference := v - s.absolute), absolute)
  }

  /** With the sensor unmoved since the last sample, taring reads exactly `v`. */
  lemma TareReadsTarget(s: Store, v: real)
    ensures Tare(s, v, s.absolute).visible == v
    ensures Tare(s, v, s.absolute).absolute == s.absolute
  {
  }

  /** The result of a tare does not depend on the reference it replaces. */
  lemma TareForgetsOldReference(s: Store, t: Store, v: real, absolute: real)
    requires s.absolute == t.absolute && s.samples == t.samples
    ensures Tare(s, v, absolute) == Tare(t, v, absolute)
  {
  }

  /** What a two-sided joint's `get_angle()` returns: each side and their mean. */
  datatype Angles = Angles(left: real, right: real, mean: real)

  /** Read both sides of a two-sided joint. */
  function Sides(left: Store, right: Store): (a: Angles)
    ensures a.left == left.visible && a.right == right.visible
    ensures a.mean - a.left == a.right - a.mean
  {
    Angles(left.visible, right.visible, (left.visible + right.visible) * 0.5)
  }

  /** One call on a store: a sampling phase, or a tare (which samples too). */
  datatype Op = Sample(absolute: real) | TareTo(target: real, absolute: real)

  function Step(s: Store, op: Op): Store {
    match op
    case Sample(a) => Update(s, a)
    case TareTo(v, a) => Tare(s, v, a)
  }

  /** Apply a sequence of calls, first to last. */
  function Run(s: Store, ops: seq<Op>): Store
    decreases |ops|
  {
    if |ops| == 0 then s else Run(Step(s, ops[0]), ops[1..])
  }

  /** The raw absolute readings carried by a sequence of calls. */
  function Readings(ops: seq<Op>): seq<real>
    decreases |ops|
  {
    if |ops| == 0 then [] else [ops[0].absolute] + Readings(ops[1..])
  }

  /** No call in the sequence is a tare. */
  predicate SamplesOnly(ops: seq<Op>) {
    forall i :: 0 <= i < |ops| ==> ops[i].Sample?
  }

  /** Whatever mix of updates and tares is applied, the store ends
      consistent (once anything at all has been applied, or if it started so). */
  lemma {:induction false} RunConsistent(s: Store, ops: seq<Op>)
    requires Consistent(s) || |ops| > 0
    ensures Consistent(Run(s, ops))
    decreases |ops|
  {
    if |ops| > 0 {
      RunConsistent(Step(s, ops[0]), ops[1..]);
    }
  }

  /** The velocity filter is stepped with exactly the raw absolute
      readings, one per call, whatever taring happened in between. */
  lemma {:induction false} RunFeedsReadings(s: Store, ops: seq<Op>)
    ensures Run(s, ops).samples == s.samples + Readings(ops)
    decreases |ops|
  {
    if |ops| > 0 {
      var s' := Step(s, ops[0]);
      RunFeedsReadings(s', ops[1..]);
      calc {
        Run(s, ops).samples;
        s'.samples + Readings(ops[1..]);
        (s.samples + [ops[0].absolute]) + Readings(ops[1..]);
        s.samples + ([ops[0].absolute] + Readings(ops[1..]));
      }
    }
  }

  /** A freshly constructed store, after any non-empty sequence of calls,
      is consistent and has fed its filter exactly the raw readings. */
  lemma {:induction false} FreshRun(ops: seq<Op>)
    requires |ops| > 0
    ensures Consistent(Run(Fresh(), ops))
    ensures Run(Fresh(), ops).samples == Readings(ops)
  {
    RunConsistent(Fresh(), ops);
    RunFeedsReadings(Fresh(), ops);
  }

  /** Two stores that differ only in their reference stay that way under
      any calls: absolute poses and filter samples agree, and the gap
      between their references survives updates and is erased by a tare. */
  lemma {:induction false} RunIgnoresReference(s: Store, t: Store, ops: seq<Op>)
    requires s.absolute == t.absolute && s.samples == t.samples
    ensures Run(s, ops).absolute == Run(t, ops).absolute
    ensures Run(s, ops).samples == Run(t, ops).samples
    ensures SamplesOnly(ops) ==>
      Run(s, ops).reference - Run(t, ops).reference == s.reference - t.reference
    ensures !SamplesOnly(ops) ==> Run(s, ops).reference == Run(t, ops).reference
    decreases |ops|
  {
    if |ops| > 0 {
      var s', t' := Step(s, ops[0]), Step(t, ops[0]);
      RunIgnoresReference(s', t', ops[1..]);
      if ops[0].TareTo? {
        assert s'.reference == t'.reference;
        assert !SamplesOnly(ops);
        if SamplesOnly(ops[1..]) {
          assert Run(s, ops).reference == Run(t, ops).reference;
        }
      } else {
        if SamplesOnly(ops) {
          assert SamplesOnly(ops[1..]) by {
            forall i | 0 <= i < |ops[1..]| ensures ops[1..][i].Sample? {
              assert ops[1..][i] == ops[i + 1];
            }
          }
        } else {
          assert !SamplesOnly(ops[1..]) by {
            var k :| 0 <= k < |ops| && !ops[k].Sample?;
            assert k > 0 && ops[1..][k - 1] == ops[k];
          }
        }
      }
    }
  }
}

=== FILE: tilter.dfy ===
/** The tilter: its angle is read off the four drive encoders through the
    differential, and its commands are requests written into the
    transmission record. */
module Tilter {
  import opened PoseStore
  import opened Transmission

  /** Readings of the four drive motors' integrated encoders, in degrees. */
  datatype DriveEncoders = DriveEncoders(
    leftShared: real,
    leftDirect: real,
    rightShared: real,
    rightDirect: real)

  /** Gear reduction between the differential and the tilter arm. */
  const REDUCTION: real := 5.0

  /** The tilter joint: one pose store for its angle. */
  datatype Tilter = Tilter(pose: Store)

  /** Absolute tilter angle from the drive encoders: half the summed
      shared-minus-direct differences, negated, through the reduction. */
  function AbsoluteAngle(e: DriveEncoders): real {
    -((e.leftShared - e.leftDirect) + (e.rightShared - e.rightDirect)) * 0.5 / REDUCTION
  }

  /** `get_angle()`: the visible angle, which is the encoder angle shifted
      by the tare reference. */
  function GetAngle(t: Tilter): (a: real)
    ensures Consistent(t.pose) ==> a == t.pose.absolute + t.pose.reference
  {
    t.pose.visible
  }

  /** `update_angle()`. */
  function UpdateAngle(t: Tilter, e: DriveEncoders): (r: Tilter)
    ensures Consistent(r.pose)
    ensures r.pose.absolute == AbsoluteAngle(e)
    ensures r.pose.reference == t.pose.reference
    ensures r.pose.samples == t.pose.samples + [AbsoluteAngle(e)]
  {
    Tilter(Update(t.pose, AbsoluteAngle(e)))
  }

  /** `tare_angle(v)`: re-reference against the previous absolute angle,
      then run the update. */
  function TareAngle(t: Tilter, v: real, e: DriveEncoders): (r: Tilter)
    ensures Consistent(r.pose)
    ensures r.pose.reference == v - t.pose.absolute
    ensures GetAngle(r) == v + (AbsoluteAngle(e) - t.pose.absolute)
    ensures r.pose.samples == t.pose.samples + [AbsoluteAngle(e)]
  {
    Tilter(Tare(t.pose, v, AbsoluteAngle(e)))
  }

  /** Driving both motors of a side by the same amount (common mode, the
      drivetrain's own motion) leaves the tilter angle where it was; a
      shared motor alone moves it by a tenth of its travel, backwards. */
  lemma CommonModeLeavesAngle(e: DriveEncoders, dl: real, dr: real)
    ensures AbsoluteAngle(DriveEncoders(e.leftShared + dl, e.leftDirect + dl,
                                        e.rightShared + dr, e.rightDirect + dr))
         == AbsoluteAngle(e)
    ensures AbsoluteAngle(e.(leftShared := e.leftShared + dl)) == AbsoluteAngle(e) - dl / 10.0
    ensures AbsoluteAngle(e.(rightShared := e.rightShared + dr)) == AbsoluteAngle(e) - dr / 10.0
  {
  }

  /** Taring with the encoders unmoved reads exactly `v`, and so does every
      later update for as long as they stay unmoved. */
  lemma TareThenUpdateReads(t: Tilter, v: real, e: DriveEncoders)
    requires t.pose.absolute == AbsoluteAngle(e)
    ensures GetAngle(TareAngle(t, v, e)) == v
    ensures GetAngle(UpdateAngle(TareAngle(t, v, e), e)) == v
  {
  }

  /** The filter sample depends on the encoders only, not on the reference. */
  lemma FilterSampleIgnoresReference(t: Tilter, ref: real, e: DriveEncoders)
    ensures UpdateAngle(t, e).pose.samples == UpdateAngle(Tilter(t.pose.(reference := ref)), e).pose.samples
    ensures UpdateAngle(t, e).pose.absolute == UpdateAngle(Tilter(t.pose.(reference := ref)), e).pose.absolute
  {
  }

  /** `move_voltage(val)`: passthrough with the given tilter voltage. */
  function MoveVoltage(q: Requests, val: int): (r: Requests)
    ensures r.state == LockedPassthrough && r.tilterVoltage == val
    ensures r.bias == q.bias && r.holdTarget == q.holdTarget
    ensures ChassisUnchanged(q, r)
  {
    q.(state := LockedPassthrough, tilterVoltage := val)
  }

  /** `hold(bias)`: hold the tilter where it currently reads. */
  function Hold(q: Requests, t: Tilter, bias: int): (r: Requests)
    ensures r.state == Holding && r.bias == bias
    ensures r.holdTarget == GetAngle(t)
    ensures r.tilterVoltage == q.tilterVoltage
    ensures ChassisUnchanged(q, r)
  {
    q.(bias := bias, holdTarget := t.pose.visible, state := Holding)
  }

  /** `extend_passive()`. */
  function ExtendPassive(q: Requests): (r: Requests)
    ensures r.state == Extending
    ensures r.(state := q.state) == q
  {
    q.(state := Extending)
  }

  /** `retract_passive()`. */
  function RetractPassive(q: Requests): (r: Requests)
    ensures r.state == Retracting
    ensures r.(state := q.state) == q
  {
    q.(state := Retracting)
  }

  /** Holding right after a tare with unmoved encoders holds the tared value. */
  lemma HoldAfterTareTargetsTare(q: Requests, t: Tilter, v: real, e: DriveEncoders, bias: int)
    requires t.pose.absolute == AbsoluteAngle(e)
    ensures Hold(q, TareAngle(t, v, e), bias).holdTarget == v
  {
  }
}

=== FILE: transmission.dfy ===
/** The request fields of the transmission that the chassis and the
    tilter write. The arbitration that later reads them is not modelled;
    here the transmission is an immutable record and every request is a
    pure function returning the updated record. */
module Transmission {

  /** Behaviour the transmission is asked to take. */
  datatype State = Passive | Holding | Retracting | Extending | LockedPassthrough

  /** The fields written by `Chassis` and `Tilter` calls. Voltages are in
      millivolts; `holdTarget` is the hold controller's target in degrees. */
  datatype Requests = Requests(
    state: State,
    chassisLeft: int,
    chassisRight: int,
    tilterVoltage: int,
    bias: int,
    holdTarget: real)

  /** The desired chassis voltages agree. */
  predicate ChassisUnchanged(a: Requests, b: Requests) {
    a.chassisLeft == b.chassisLeft && a.chassisRight == b.chassisRight
  }

  /** Every field a tilter call may write agrees. */
  predicate TilterUnchanged(a: Requests, b: Requests) {
    && a.state == b.state
    && a.tilterVoltage == b.tilterVoltage
    && a.bias == b.bias
    && a.holdTarget == b.holdTarget
  }

  /** The transmission's advisory control mutex, seen from the periodic
      driver loop: either free, or held by some other routine. */
  datatype Mutex = Free | HeldByRoutine
}
